=== FILE: README.md ===
# PiOSC video player: control core

A Dafny model of the control core of `player.py`, the OSC-driven video player
daemon of a Raspberry Pi kiosk. The daemon receives OSC messages (`/play`,
`/stop`, `/volume_up`, `/volume_down`, `/volume_set`), keeps the last known
volume and the handle of one foreground child process (VLC playing a video,
or feh showing a black screen while idle), and drives `amixer`, `cvlc`,
`feh`, `apt-get` and `xset`.

Every external program is an oracle whose answer is a parameter:

- `MixerRun`: one run of amixer. Either it ran, with an exit status and its output, or it could not be started.
- `StopEnv`: the answers while stopping.
  - whether `poll()` saw the tracked child still running;
  - whether it exited within the grace period after SIGTERM;
  - whether `which feh` found feh, and whether apt-get then installed it;
  - whether feh, or else xset, could be started.
- `World`: all the answers one OSC command may need, including whether the video file exists and whether VLC could be started.

Child processes are objects of class `Proc`, newly allocated on each spawn.
Three ghost fields record the effects on the outside world:

- `live`: the children the daemon started and has neither signalled nor seen exit.
- `signals`: every SIGTERM/SIGKILL sent.
- `mixerCommands`: every `amixer set` command line attempted, including those whose amixer could not be started.

Modules:

- `PyText` (`pytext.dfy`): the Python string built-ins the code uses. These are `str.find`, slicing, `lstrip`, the `in` test, and `int()`/`str()` on decimal text.
- `Mixer` (`mixer.dfy`): choosing the control, reading the level from `amixer get`, the `amixer set` command line, the up/down targets, and the start-up step clamp.
- `Osc` (`osc.dfy`): OSC arguments, `int()`/`str()` of them, and the routing table.
- `Player` (`player.dfy`): the class `VideoPlayer` holding the globals `current_volume`, `volume_step` and `current_process`, plus the handlers.
- `Wrappers` (`wrappers.dfy`): `Option`.

Behaviour of the code worth knowing:

- `get_system_volume` does not clamp what it reads. `ReportedLevel` shows that a report of 150% reads as 150.
- `play_video` stops playback before it checks that the file exists. So a missing file still ends playback and leaves the idle screen, rather than leaving the state untouched.
- The daemon tracks a single foreground child, yet more than one can be alive. A successful play replaces the idle viewer's handle without signalling the viewer. `ViewerLeaksAcrossPlayAndStop` shows two feh processes alive after play then stop.
- A failed VLC spawn leaves the idle viewer as the handle.

## Model

| member | source | states |
|---|---|---|
| `PyText.Find` | player.py:124 | `find` gives -1 exactly when the character is absent; otherwise it gives an index holding it with no earlier occurrence |
| `PyText.Slice` | player.py:124 | a slice with non-negative bounds is the plain subsequence when the bounds are in order and within the string, and empty when the start is not before the end |
| `PyText.LStrip` | player.py:328 | `lstrip('/')`; it has no contract of its own, and `LStripSpec` and `LStripRepeat` state its properties |
| `PyText.LStripSpec` | player.py:328 | the result is a suffix of the input, everything removed is the stripped character, and the result does not start with it |
| `PyText.LStripRepeat` | player.py:328 | any number of leading copies of the character are all removed |
| `PyText.ParseInt` | player.py:125 | `int()` of decimal text: digits, or a `+` or `-` followed by digits, give their value, negated after `-`; anything with a non-digit after the optional sign, the empty string included, is not a number |
| `PyText.ShowInt` | player.py:331 | `str(i)` (also used for the level in the `amixer set` line, player.py:99): canonical decimal text: ASCII digits with no leading zero (except `0` itself), preceded by `-` exactly for a negative number and never by `+`; `ParseShowInt` shows it reads back as `i` |
| `PyText.Contains` | player.py:77-81 | `pat in s`: `pat` occurs in `s` as a contiguous run, and the empty pattern is always contained; a definition with no contract of its own |
| `PyText.ParseShowInt` | player.py:125 | `int(str(i)) == i` for every integer |
| `Mixer.LineControl` | player.py:76-82 | a line selects a control exactly when it names 'Master', 'PCM' or 'Speaker' in quotes; each result is named on the line; Master wins over PCM, and PCM wins over Speaker |
| `Mixer.SelectControl` | player.py:71-86 | the chosen control is always Master, PCM or Speaker |
| `Mixer.SelectControlFirstMatch` | player.py:76-82 | the earliest line naming a known control decides the choice |
| `Mixer.SelectControlFallback` | player.py:84-86 | when no line names a known control, the choice is PCM |
| `Mixer.ClampPercent` | player.py:96 | the level handed to amixer lies in 0..100, equals the request when that is in range, and is 0 below and 100 above |
| `Mixer.SetVolumeArgs` | player.py:95-99 | the `amixer set <control> NN%` line always carries a level in 0..100, namely the requested level clamped |
| `Mixer.LevelField` | player.py:124 | the level text, the slice after the first `[` up to the first `%`: it never holds `%`, and with no `[` it is everything before the first `%` |
| `Mixer.ParseVolume` | player.py:122-128 | output without `%` reads as 80; when the text between the first `[` and the first `%` is an integer, that integer is the result, and any result other than 80 comes from that text |
| `Mixer.UnbracketedLevel` | player.py:122-125 | output with no `[`, such as `70%`, is read from its start: `N%...` reads as N |
| `Mixer.SystemVolume` | player.py:113-131 | when amixer cannot be started the level is 80; otherwise its output is parsed and its exit status is ignored |
| `Mixer.ReportedLevel` | player.py:122-125 | a report `...[N%...` is read back as exactly N, even outside 0..100, when nothing before the `[` holds `[` or `%` |
| `Mixer.EmptyLevelField` | player.py:123-131 | when the first `%` is not after the first `[` plus one, the level field is empty and the level is 80 |
| `Mixer.DownThenUpRestores` | player.py:182-214 | with a mixer that reports back what it was set to, down then up returns to the start level when the step down stays at or above 0 |
| `Mixer.RaisedLevel` | player.py:190 | the volume-up target is one step up, capped at 100 |
| `Mixer.LoweredLevel` | player.py:207 | the volume-down target is one step down, floored at 0 |
| `Mixer.UpThenDownRestores` | player.py:182-214 | with a mixer that reports back what it was set to, up then down returns to the start level when the step up stays at or below 100 |
| `Mixer.StepFromArgument` | player.py:372-373 | the step lies in 1..20; a configured step in range is kept, others are clamped, and 0 leaves the default 5 |
| `Osc.Truncate` | player.py:345 | `int()` of a float rounds toward zero |
| `Osc.IntOf` | player.py:345 | `int()` of an argument: integers are kept, floats are truncated toward zero, strings are parsed as decimal text, True and False give 1 and 0, and None fails |
| `Osc.StrOf` | player.py:331 | `str()` of an argument: strings are kept, an integer gives its decimal text (which parses back to it), a float its Python text, booleans `True`/`False`, and None `None` |
| `Osc.Command` | player.py:328 | the command is the address with its leading slashes removed: a suffix of the address that does not start with `/`, everything before it being `/` |
| `Osc.Route` | player.py:328-351 | the dispatch table on the address without leading slashes. `play` and `volume_set` need an argument. A non-integer `volume_set` argument is rejected. Everything else is unknown. |
| `Osc.RouteIgnoresLeadingSlashes` | player.py:328 | any number of leading slashes routes the same |
| `Osc.RouteReadsFirstArgumentOnly` | player.py:330-345 | arguments after the first never change the routing |
| `Osc.TextLevelRoutesLikeNumber` | player.py:343-347 | a level sent as text such as "55" routes like the integer 55 |
| `Player.BlankLadder` | player.py:295-320 | feh is shown exactly when it is found or installed and it starts. xset is used only when feh can be neither found nor installed. |
| `Player.StopSignals` | player.py:284-292 | no signal unless a tracked child still runs; at most two signals, every one targeting the tracked child; SIGTERM comes first, and a second signal, SIGKILL, is sent exactly when the child outlives the grace period |
| `Player.StopKeepsHandleOnlyWhenLadderFails` | player.py:284-320 | stopping keeps the previous handle only if that child had already exited and neither feh nor xset started; the child is not live afterwards |
| `Player.VideoPlayer.ViewerLeaksAcrossPlayAndStop` | player.py:133-180 | running `PlayVideo` (file found, VLC started, feh shown) and then `StopVideo` (feh shown) leaves two distinct feh viewers alive, the displaced one and the new handle, and no signal ever targeted the displaced one |
| `Player.JoinPath` | player.py:141 | `Path(directory) / name`; it has no contract of its own, and `JoinPathResolves` states its properties |
| `Player.JoinPathResolves` | player.py:141 | the path VLC gets ends with the received name; a relative name lies under the video directory, and an absolute one replaces it |
| `Player.CreateBlackScreen` | player.py:254-277 | a new feh process when it starts, None otherwise |
| `Player.VideoPlayer.constructor` | player.py:50-55 | start-up state: the control chosen from the scontrols lines, the clamped step, volume 80 and no child |
| `Player.VideoPlayer.SetSystemVolume` | player.py:92-111 | runs `amixer set` with the clamped level; succeeds exactly when amixer ran and exited 0; nothing else changes |
| `Player.VideoPlayer.VolumeUp` | player.py:182-197 | re-reads the level and asks for one step up. The target is stored on success; otherwise the fresh reading is stored. The result equals mixer success. |
| `Player.VideoPlayer.VolumeDown` | player.py:199-214 | the same as volume up, one step down with a floor of 0 |
| `Player.VideoPlayer.VolumeSet` | player.py:216-236 | a level outside 0..100 is rejected and nothing changes; an in-range level is sent to amixer and stored only on success |
| `Player.VideoPlayer.EndTracked` | player.py:283-292 | a running child gets SIGTERM, then SIGKILL if it outlives the grace period, and the handle is cleared; an exited child keeps its handle; either way it is no longer live |
| `Player.VideoPlayer.ShowBlankScreen` | player.py:294-320 | a started feh viewer or xset blanker becomes the new live handle; a failed feh clears the handle; when xset fails too the handle is unchanged |
| `Player.VideoPlayer.StopVideo` | player.py:279-320 | a running child gets SIGTERM, then SIGKILL if it outlives the grace period. The previous child is not live afterwards. The new handle is the feh viewer, the xset blanker, None, or the stale handle, as the ladder decides. |
| `Player.VideoPlayer.PlayVideo` | player.py:133-180 | always stops first, even for a missing file. A missing file keeps the volume and leaves the idle handle. An existing file re-reads the volume. A started VLC on the resolved path becomes the live handle while the displaced viewer stays live. The signals are exactly those of the stop. |
| `Player.VideoPlayer.HandleMessage` | player.py:322-351 | for each route, the chosen handler's whole outcome: play as `PlayVideo`, stop as `StopVideo`, volume up, down and set as `VolumeUp`, `VolumeDown` and `VolumeSet` (stored level and `amixer set` line); a rejected level or an unknown command changes nothing |

## Left out

- Logging, argument parsing, the video-directory check with `sys.exit`, the OSC UDP server and its thread, the signal handlers and the keep-alive loop (player.py:16-34, 353-446). These are I/O and a third-party library. The constructor stands for the state after start-up. The start-up and shutdown calls to `stop_video` are `StopVideo` calls.
- `get_current_mixer_controls`: running `amixer scontrols` and splitting its output into lines is not modelled. Those lines are the constructor's input; an exception gives no lines.
- `monitor_vlc_output`: a background polling thread, left out as concurrency. Races between handler threads on the shared handle are left out too.
- The `xset` calls in `main` and the feh installation in `main`: they change no modelled state.
- Writing the black PNG and creating the cache directory in `create_black_screen`: filesystem I/O. Only "a feh process or None" is kept.
- `time.sleep(0.5)`: the grace period is the oracle `exitsInGrace`. SIGKILL is taken to end the child.
- `which` missing: `subprocess.run(["which", "feh"])` would then raise FileNotFoundError, which escapes `stop_video`. The model covers only "found" and "not found".
- `PyText.ParseInt`: Python's `int()` also accepts surrounding whitespace, `_` between digits and non-ASCII digits. The model reads only an optional sign followed by ASCII digits.
- `Osc.IntOf`: `int()` of an infinite or NaN float raises OverflowError/ValueError. The model's floats are finite reals.
- `Osc.StrOf`: Python's text for a float is given with the argument, not computed. OSC blobs and the other OSC argument types are not modelled.
- `Player.JoinPath`: pathlib's normalisation of the joined path (repeated slashes, `.` components, trailing slashes) is not modelled.
- `Player.VideoPlayer.StopVideo`: it requires that `poll()` does not report as running a child already known to have exited. This is a consistency condition on the oracle, not a demand of the code.
- `Player.VideoPlayer.PlayVideo`: the model assumes the `unclutter` call (player.py:155-156) returns. `subprocess.run` waits for it, and unclutter normally keeps running in the foreground, so the real `play_video` may block there and never start VLC. That blocking is not modelled.

=== FILE: mixer.dfy ===
/**
 * The volume controller's pure logic: which ALSA simple control the daemon
 * drives (chosen once from the lines of `amixer scontrols`), how the level is
 * read out of the text of `amixer get`, the argument list of `amixer set`, the
 * step arithmetic of volume up/down, and the start-up clamp of the step.
 */
module Mixer {
  import opened Wrappers
  import opened PyText

  /** The level reported when amixer's answer cannot be read. */
  const DefaultVolume: int := 80
  /** The volume step when none (or zero) is configured. */
  const DefaultStep: int := 5

  /** One run of amixer: it ran, with an exit status and its standard output, or it could not be started. */
  datatype MixerRun = Ran(status: int, stdout: string) | LaunchFailed

  /** amixer reported success: it ran and exited with status 0. */
  predicate Succeeded(run: MixerRun) {
    run.Ran? && run.status == 0
  }

  function Min(a: int, b: int): int { if a <= b then a else b }
  function Max(a: int, b: int): int { if a >= b then a else b }

  predicate KnownControl(name: string) {
    name == "Master" || name == "PCM" || name == "Speaker"
  }

  /**
   * The control one line of `amixer scontrols` names, if it names a known one in
   * quotes; when a line names several, Master wins over PCM and PCM over Speaker.
   */
  function LineControl(line: string): (r: Option<string>)
    ensures r.Some? <==> Contains(line, "'Master'") || Contains(line, "'PCM'") || Contains(line, "'Speaker'")
    ensures r.Some? ==> KnownControl(r.value)
    ensures Contains(line, "'Master'") ==> r == Some("Master")
    ensures r == Some("Master") ==> Contains(line, "'Master'")
    ensures r == Some("PCM") ==> Contains(line, "'PCM'") && !Contains(line, "'Master'")
    ensures r == Some("Speaker") ==> Contains(line, "'Speaker'") && !Contains(line, "'Master'") && !Contains(line, "'PCM'")
  {
    if Contains(line, "'Master'") then Some("Master")
    else if Contains(line, "'PCM'") then Some("PCM")
    else if Contains(line, "'Speaker'") then Some("Speaker")
    else None
  }

  /**
   * The control the daemon uses for volume: that of the first line naming a
   * known control, and PCM when no line does.
   */
  function SelectControl(controls: seq<string>): (r: string)
    ensures KnownControl(r)
  {
    if |controls| == 0 then "PCM"
    else match LineControl(controls[0])
      case Some(name) => name
      case None => SelectControl(controls[1..])
  }

  /** The earliest line that names a known control decides, whatever follows it. */
  lemma {:induction false} SelectControlFirstMatch(controls: seq<string>, k: nat)
    requires k < |controls| && LineControl(controls[k]).Some?
    requires forall j :: 0 <= j < k ==> LineControl(controls[j]).None?
    ensures SelectControl(controls) == LineControl(controls[k]).value
  {
    if k > 0 {
      assert LineControl(controls[0]).None?;
      SelectControlFirstMatch(controls[1..], k - 1);
    }
  }

  /** With no line naming a known control, the daemon falls back to PCM. */
  lemma {:induction false} SelectControlFallback(controls: seq<string>)
    requires forall j :: 0 <= j < |controls| ==> LineControl(controls[j]).None?
    ensures SelectControl(controls) == "PCM"
  {
    if |controls| > 0 {
      SelectControlFallback(controls[1..]);
    }
  }

  /** A level forced into the mixer's range 0..100. */
  function ClampPercent(v: int): (r: int)
    ensures 0 <= r <= 100
    ensures 0 <= v <= 100 ==> r == v
    ensures v < 0 ==> r == 0
    ensures v > 100 ==> r == 100
  {
    Max(0, Min(100, v))
  }

  /** The level a `NN%` argument of `amixer set` denotes, if it is one. */
  function LevelOf(arg: string): Option<int> {
    if |arg| > 0 && arg[|arg| - 1] == '%' then ParseInt(arg[..|arg| - 1]) else None
  }

  /** An `amixer set <control> NN%` command line whose level lies in 0..100. */
  predicate IsVolumeSetCommand(argv: seq<string>, control: string) {
    && |argv| == 4
    && argv[0] == "amixer" && argv[1] == "set" && argv[2] == control
    && LevelOf(argv[3]).Some? && 0 <= LevelOf(argv[3]).value <= 100
  }

  /**
   * The command line that sets the volume: whatever level is asked for, the
   * level it hands to amixer is that level clamped to 0..100.
   */
  function SetVolumeArgs(control: string, percent: int): (argv: seq<string>)
    ensures IsVolumeSetCommand(argv, control)
    ensures LevelOf(argv[3]) == Some(ClampPercent(percent))
  {
    var level := ClampPercent(percent);
    var arg := ShowInt(level) + "%";
    assert arg[..|arg| - 1] == ShowInt(level);
    ParseShowInt(level);
    ["amixer", "set", control, arg]
  }

  /** The text between the first `[` (or the start, without one) and the first `%`. */
  function LevelField(output: string): (r: string)
    requires '%' in output
    ensures '%' !in r
    ensures '[' !in output ==> r == output[..Find(output, '%')]
  {
    Slice(output, Find(output, '[') + 1, Find(output, '%'))
  }

  /**
   * The level read from the output of `amixer get`: the integer in the level
   * field, with no clamping; the default when there is no `%` or the field is
   * not an integer.
   */
  function ParseVolume(output: string): (r: int)
    ensures '%' !in output ==> r == DefaultVolume
    ensures r != DefaultVolume ==> '%' in output && ParseInt(LevelField(output)) == Some(r)
    ensures '%' in output && ParseInt(LevelField(output)).Some? ==> r == ParseInt(LevelField(output)).value
  {
    if '%' !in output then DefaultVolume
    else
      match ParseInt(LevelField(output))
      case Some(n) => n
      case None => DefaultVolume
  }

  /** The level `get_system_volume` yields for one run of `amixer get`; its exit status is not looked at. */
  function SystemVolume(run: MixerRun): (r: int)
    ensures run.LaunchFailed? ==> r == DefaultVolume
    ensures run.Ran? ==> r == ParseVolume(run.stdout)
  {
    match run
    case Ran(_, stdout) => ParseVolume(stdout)
    case LaunchFailed => DefaultVolume
  }

  /** A mixer report in amixer's `... [NN%] ...` shape. */
  function Report(prefix: string, level: int, suffix: string): string {
    prefix + "[" + ShowInt(level) + "%" + suffix
  }

  /**
   * Reading a report gives back exactly the level in it, whenever nothing before
   * the bracket looks like a level: in particular a level outside 0..100 is
   * returned as it is, not clamped.
   */
  lemma ReportedLevel(prefix: string, level: int, suffix: string)
    requires '[' !in prefix && '%' !in prefix
    ensures ParseVolume(Report(prefix, level, suffix)) == level
  {
    var digits := ShowInt(level);
    var out := Report(prefix, level, suffix);
    ShowIntHasNoMarks(level);
    assert Find(out, '[') == |prefix| by {
      assert out == prefix + ("[" + digits + "%" + suffix);
      FindAfter(prefix, "[" + digits + "%" + suffix, '[');
    }
    assert Find(out, '%') == |prefix| + 1 + |digits| by {
      assert out == (prefix + "[" + digits) + ("%" + suffix);
      assert '%' !in prefix + "[" + digits;
      FindAfter(prefix + "[" + digits, "%" + suffix, '%');
    }
    assert LevelField(out) == digits by {
      assert out[|prefix| + 1..|prefix| + 1 + |digits|] == digits;
    }
    ParseShowInt(level);
  }

  /**
   * Output with no `[` at all is read from its start: `N%...` reads as N, again
   * without clamping. (A `[` after the `%` would instead empty the field.)
   */
  lemma UnbracketedLevel(level: int, suffix: string)
    requires '[' !in suffix
    ensures ParseVolume(ShowInt(level) + "%" + suffix) == level
  {
    var digits := ShowInt(level);
    var out := digits + "%" + suffix;
    ShowIntHasNoMarks(level);
    assert '[' !in out by {
      assert out == digits + "%" + suffix;
      assert forall ch :: ch in out ==> ch in digits || ch == '%' || ch in suffix;
    }
    assert Find(out, '%') == |digits| by {
      assert out == digits + ("%" + suffix);
      FindAfter(digits, "%" + suffix, '%');
    }
    assert LevelField(out) == digits by {
      assert out[0..|digits|] == digits;
    }
    ParseShowInt(level);
  }

  /**
   * When the first `%` comes before, or right after, the first `[`, the level
   * field is empty and the default level is reported.
   */
  lemma EmptyLevelField(output: string)
    requires '%' in output && Find(output, '%') <= Find(output, '[') + 1
    ensures ParseVolume(output) == DefaultVolume
  {
  }

  /** The level volume up aims for: one step up, at most 100. */
  function RaisedLevel(level: int, step: int): (r: int)
    ensures r <= 100 && r <= level + step
    ensures r == level + step || r == 100
  {
    Min(100, level + step)
  }

  /** The level volume down aims for: one step down, at least 0. */
  function LoweredLevel(level: int, step: int): (r: int)
    ensures r >= 0 && r >= level - step
    ensures r == level - step || r == 0
  {
    Max(0, level - step)
  }

  /**
   * With a mixer that reports back the level it was last set to, volume up and
   * then volume down return to the starting level, as long as the step up does
   * not hit the ceiling.
   */
  lemma UpThenDownRestores(prefix: string, suffix: string, level: int, step: int)
    requires '[' !in prefix && '%' !in prefix
    requires 1 <= step && 0 <= level && level + step <= 100
    ensures var up := RaisedLevel(ParseVolume(Report(prefix, level, suffix)), step);
            LoweredLevel(ParseVolume(Report(prefix, up, suffix)), step) == level
  {
    ReportedLevel(prefix, level, suffix);
    var up := RaisedLevel(level, step);
    assert up == level + step;
    ReportedLevel(prefix, up, suffix);
  }

  /**
   * The other order: volume down and then volume up return to the starting
   * level, as long as the step down does not hit the floor.
   */
  lemma DownThenUpRestores(prefix: string, suffix: string, level: int, step: int)
    requires '[' !in prefix && '%' !in prefix
    requires 1 <= step && 0 <= level - step && level <= 100
    ensures var down := LoweredLevel(ParseVolume(Report(prefix, level, suffix)), step);
            RaisedLevel(ParseVolume(Report(prefix, down, suffix)), step) == level
  {
    ReportedLevel(prefix, level, suffix);
    var down := LoweredLevel(level, step);
    assert down == level - step;
    ReportedLevel(prefix, down, suffix);
  }

  /**
   * The volume step in force after start-up: a non-zero configured step clamped
   * to 1..20; zero counts as "not given" and leaves the default.
   */
  function StepFromArgument(requested: int): (step: int)
    ensures 1 <= step <= 20
    ensures requested == 0 ==> step == DefaultStep
    ensures 1 <= requested <= 20 ==> step == requested
    ensures requested > 20 ==> step == 20
    ensures requested < 0 ==> step == 1
  {
    if requested != 0 then Max(1, Min(20, requested)) else DefaultStep
  }
}

=== FILE: osc.dfy ===
/**
 * The command router: an OSC address and its arguments, as the OSC server
 * hands them over, decide which handler runs.
 */
module Osc {
  import opened Wrappers
  import opened PyText

  /**
   * One OSC argument as python-osc delivers it. A float carries, beside its
   * value, the text Python's `str()` gives for it.
   */
  datatype Arg = Int(i: int) | Float(value: real, text: string) | Str(s: string) | Bool(b: bool) | Nil

  /** `int(x)` for a float: the integer part, rounding toward zero. */
  function Truncate(r: real): (n: int)
    ensures 0.0 <= r ==> n as real <= r < n as real + 1.0
    ensures r < 0.0 ==> n as real - 1.0 < r <= n as real
  {
    if r >= 0.0 then r.Floor else -((-r).Floor)
  }

  /** `int(arg)`: None stands for the ValueError or TypeError Python raises. */
  function IntOf(a: Arg): (r: Option<int>)
    ensures a.Int? ==> r == Some(a.i)
    ensures a.Float? ==> r == Some(Truncate(a.value))
    ensures a.Str? ==> r == ParseInt(a.s)
    ensures a.Bool? ==> r == Some(if a.b then 1 else 0)
    ensures a.Nil? ==> r == None
  {
    match a
    case Int(i) => Some(i)
    case Float(value, _) => Some(Truncate(value))
    case Str(s) => ParseInt(s)
    case Bool(b) => Some(if b then 1 else 0)
    case Nil => None
  }

  /** `str(arg)`. */
  function StrOf(a: Arg): (r: string)
    ensures a.Str? ==> r == a.s
    ensures a.Int? ==> r == ShowInt(a.i) && ParseInt(r) == Some(a.i)
    ensures a.Float? ==> r == a.text
    ensures a.Bool? ==> r == (if a.b then "True" else "False")
    ensures a.Nil? ==> r == "None"
  {
    match a
    case Int(i) => ParseShowInt(i); ShowInt(i)
    case Float(_, text) => text
    case Str(s) => s
    case Bool(b) => if b then "True" else "False"
    case Nil => "None"
  }

  /** What the router decided to do with one message. */
  datatype Action =
    | PlayFile(filename: string)
    | StopPlayback
    | RaiseVolume
    | LowerVolume
    | SetVolume(level: int)
    | RejectVolume
    | Ignore(command: string)

  /** The command an address names: the address without its leading slashes. */
  function Command(address: string): (r: string)
    ensures |r| <= |address| && r == address[|address| - |r|..]
    ensures forall i :: 0 <= i < |address| - |r| ==> address[i] == '/'
    ensures r == [] || r[0] != '/'
  {
    LStripSpec(address, '/');
    LStrip(address, '/')
  }

  /**
   * The dispatch table. `play` and `volume_set` need an argument and fall
   * through to "unknown" without one; a `volume_set` argument that is not an
   * integer is rejected; any other name is unknown.
   */
  function Route(address: string, args: seq<Arg>): (a: Action)
    ensures a.PlayFile? <==> Command(address) == "play" && |args| > 0
    ensures a.PlayFile? ==> a.filename == StrOf(args[0])
    ensures a.StopPlayback? <==> Command(address) == "stop"
    ensures a.RaiseVolume? <==> Command(address) == "volume_up"
    ensures a.LowerVolume? <==> Command(address) == "volume_down"
    ensures a.SetVolume? <==> Command(address) == "volume_set" && |args| > 0 && IntOf(args[0]).Some?
    ensures a.SetVolume? ==> IntOf(args[0]) == Some(a.level)
    ensures a.RejectVolume? <==> Command(address) == "volume_set" && |args| > 0 && IntOf(args[0]).None?
    ensures a.Ignore? ==> a.command == Command(address)
  {
    var command := Command(address);
    if command == "play" && |args| > 0 then PlayFile(StrOf(args[0]))
    else if command == "stop" then StopPlayback
    else if command == "volume_up" then RaiseVolume
    else if command == "volume_down" then LowerVolume
    else if command == "volume_set" && |args| > 0 then
      match IntOf(args[0])
      case Some(level) => SetVolume(level)
      case None => RejectVolume
    else Ignore(command)
  }

  /** Any number of leading slashes routes the same: `//stop` is `/stop` is `stop`. */
  lemma RouteIgnoresLeadingSlashes(n: nat, address: string, args: seq<Arg>)
    ensures Route(Repeat('/', n) + address, args) == Route(address, args)
  {
    LStripRepeat('/', n, address);
  }

  /** Only the first argument is looked at; any further ones are ignored. */
  lemma RouteReadsFirstArgumentOnly(address: string, args: seq<Arg>, rest: seq<Arg>)
    requires |args| > 0
    ensures Route(address, args + rest) == Route(address, args[..1])
  {
    assert (args + rest)[0] == args[..1][0];
  }

  /** A level sent as decimal text routes exactly like the same level sent as an integer. */
  lemma TextLevelRoutesLikeNumber(address: string, level: int)
    ensures Route(address, [Str(ShowInt(level))]) == Route(address, [Int(level)])
  {
    ParseShowInt(level);
  }
}

=== FILE: player.dfy ===
/**
 * The daemon's process-wide state and the handlers OSC commands reach: the
 * last known volume level, the handle of the foreground child process (the
 * VLC player or the idle black-screen viewer), and what they do to both.
 * Every external program is an oracle: its answers come in as parameters.
 */
module Player {
  import opened Wrappers
  import opened PyText
  import opened Mixer
  import opened Osc

  /** What a child process of the daemon runs. */
  datatype Kind = Vlc(path: string) | FehBlackScreen | XsetBlank

  /** A child process the daemon started: a `Popen` handle. */
  class Proc {
    const kind: Kind

    constructor (kind: Kind)
      ensures this.kind == kind
    {
      this.kind := kind;
    }
  }

  /** A signal the daemon sent to a child. */
  datatype Signal = Terminate(target: Proc) | Kill(target: Proc)

  /**
   * The world's answers while playback is stopped and the screen blanked:
   * whether the tracked process still ran when polled, whether it exited within
   * the grace period after SIGTERM, whether `which feh` found feh, whether
   * apt-get then installed it, and whether feh, or else xset, could be started.
   */
  datatype StopEnv = StopEnv(
    running: bool,
    exitsInGrace: bool,
    fehFound: bool,
    fehInstalled: bool,
    viewerSpawns: bool,
    blankerSpawns: bool)

  /** The world's answers for one OSC command, whichever handler it reaches. */
  datatype World = World(
    stop: StopEnv,
    isFile: bool,
    playerSpawns: bool,
    mixerGet: MixerRun,
    mixerSet: MixerRun)

  /** Where the blank-screen ladder ends. */
  datatype Blanking = ViewerShown | ViewerFailed | BlankerShown | NothingShown

  /**
   * The blank-screen ladder: feh when it is found or can be installed; xset only
   * when feh can be neither found nor installed.
   */
  function BlankLadder(e: StopEnv): (b: Blanking)
    ensures b == ViewerShown <==> (e.fehFound || e.fehInstalled) && e.viewerSpawns
    ensures b == ViewerFailed <==> (e.fehFound || e.fehInstalled) && !e.viewerSpawns
    ensures b == BlankerShown <==> !e.fehFound && !e.fehInstalled && e.blankerSpawns
  {
    if e.fehFound || e.fehInstalled then
      if e.viewerSpawns then ViewerShown else ViewerFailed
    else if e.blankerSpawns then BlankerShown
    else NothingShown
  }

  /** The signals stopping sends to the tracked process: SIGTERM, then SIGKILL if it outlives the grace period. */
  function StopSignals(tracked: Proc?, e: StopEnv): (r: seq<Signal>)
    ensures r == [] <==> tracked == null || !e.running
    ensures |r| <= 2
    ensures forall i :: 0 <= i < |r| ==> r[i].target == tracked
    ensures r != [] ==> r[0].Terminate? && (|r| == 2 <==> !e.exitsInGrace) && (|r| == 2 ==> r[1].Kill?)
  {
    if tracked != null && e.running then
      [Terminate(tracked)] + (if e.exitsInGrace then [] else [Kill(tracked)])
    else []
  }

  function Drop(s: set<Proc>, p: Proc?): set<Proc> {
    if p == null then s else s - {p}
  }

  /**
   * How stopping leaves the handle and the live children: the previously tracked
   * child is gone; a newly started viewer or blanker becomes the handle; a
   * failed viewer clears it; when the whole ladder fails the handle is cleared
   * only if a running child was stopped, and otherwise stays as it was.
   */
  ghost predicate StopOutcome(e: StopEnv, before: Proc?, liveBefore: set<Proc>, after: Proc?, liveAfter: set<Proc>) {
    match BlankLadder(e)
    case ViewerShown =>
      after != null && after.kind == FehBlackScreen && after != before && after !in liveBefore
      && liveAfter == Drop(liveBefore, before) + {after}
    case BlankerShown =>
      after != null && after.kind == XsetBlank && after != before && after !in liveBefore
      && liveAfter == Drop(liveBefore, before) + {after}
    case ViewerFailed =>
      after == null && liveAfter == Drop(liveBefore, before)
    case NothingShown =>
      after == (if before != null && e.running then null else before)
      && liveAfter == Drop(liveBefore, before)
  }

  /**
   * Stopping keeps the old handle only in one corner: the tracked child had
   * already exited and neither feh nor xset could be started.
   */
  lemma StopKeepsHandleOnlyWhenLadderFails(e: StopEnv, before: Proc?, liveBefore: set<Proc>, after: Proc?, liveAfter: set<Proc>)
    requires StopOutcome(e, before, liveBefore, after, liveAfter)
    requires before != null && after == before
    ensures BlankLadder(e) == NothingShown && !e.running
    ensures before !in liveAfter
  {
  }

  /** `Path(directory) / name`, without Path's normalisation of the result. */
  function JoinPath(directory: string, name: string): string {
    if |name| > 0 && name[0] == '/' then name
    else if name == [] then directory
    else if directory == [] then name
    else if directory[|directory| - 1] == '/' then directory + name
    else directory + "/" + name
  }

  /**
   * The file VLC is given ends with the name received; a relative name is
   * looked up under the video directory, but an absolute one replaces it.
   */
  lemma JoinPathResolves(directory: string, name: string)
    ensures var path := JoinPath(directory, name);
            && |name| <= |path| && path[|path| - |name|..] == name
            && (|name| > 0 && name[0] == '/' ==> path == name)
            && (|name| == 0 || name[0] != '/' ==> directory <= path)
  {
    var path := JoinPath(directory, name);
    if |name| > 0 && name[0] != '/' && directory != [] {
      if directory[|directory| - 1] == '/' {
        assert path == directory + name;
      } else {
        assert path == (directory + "/") + name;
      }
    }
  }

  /** `create_black_screen`: a fullscreen feh on a black image, or None when feh cannot be started. */
  method CreateBlackScreen(spawns: bool) returns (viewer: Proc?)
    ensures spawns ==> viewer != null && fresh(viewer) && viewer.kind == FehBlackScreen
    ensures !spawns ==> viewer == null
  {
    if spawns {
      viewer := new Proc(FehBlackScreen);
    } else {
      viewer := null;
    }
  }

  class VideoPlayer {
    /** The ALSA control chosen when the daemon loads. */
    const mixerControl: string
    /** How far volume up and down move the level. */
    const volumeStep: int
    const videoDirectory: string
    /** The last known system volume (`current_volume`). */
    var currentVolume: int
    /** The foreground child process (`current_process`); null is Python's None. */
    var current: Proc?
    /** The children the daemon started and has neither signalled nor seen exit. */
    ghost var live: set<Proc>
    /** Every signal the daemon sent, oldest first. */
    ghost var signals: seq<Signal>
    /** Every `amixer set` command line the daemon attempted, oldest first. */
    ghost var mixerCommands: seq<seq<string>>

    /**
     * The daemon's invariant: a known control, a step in 1..20, only in-range
     * levels ever handed to amixer, and no signalled child still counted live.
     */
    ghost predicate Valid()
      reads this
    {
      && KnownControl(mixerControl)
      && 1 <= volumeStep <= 20
      && (forall i :: 0 <= i < |mixerCommands| ==> IsVolumeSetCommand(mixerCommands[i], mixerControl))
      && (forall i :: 0 <= i < |signals| ==> signals[i].target !in live)
    }

    /** The world cannot report as running a child already known to have exited. */
    ghost predicate PollAgrees(e: StopEnv)
      reads this
    {
      current != null && current !in live ==> !e.running
    }

    /**
     * What volume up or down leaves behind: amixer was asked for `target`, which
     * becomes the level only when amixer succeeded; otherwise the level just
     * read from amixer stays. The child processes are untouched.
     */
    twostate predicate Stepped(read: MixerRun, write: MixerRun, target: int)
      reads this
    {
      && currentVolume == (if Succeeded(write) then target else SystemVolume(read))
      && mixerCommands == old(mixerCommands) + [SetVolumeArgs(mixerControl, target)]
      && current == old(current) && live == old(live) && signals == old(signals)
    }

    /**
     * What volume set leaves behind: an in-range level is handed to amixer and
     * kept only when amixer succeeded; a level outside 0..100 changes nothing.
     */
    twostate predicate LevelStored(value: int, write: MixerRun)
      reads this
    {
      if 0 <= value <= 100 then
        && currentVolume == (if Succeeded(write) then value else old(currentVolume))
        && mixerCommands == old(mixerCommands) + [SetVolumeArgs(mixerControl, value)]
        && current == old(current) && live == old(live) && signals == old(signals)
      else
        unchanged(this)
    }

    /**
     * What stopping leaves behind: the handle and live children as `StopOutcome`
     * says, a newly started viewer or blanker, the tracked child no longer live,
     * the signals `StopSignals` names, and the volume untouched.
     */
    twostate predicate Stopped(e: StopEnv)
      reads this
    {
      && StopOutcome(e, old(current), old(live), current, live)
      && (BlankLadder(e) == ViewerShown || BlankLadder(e) == BlankerShown ==> fresh(current))
      && (old(current) != null ==> old(current) !in live)
      && signals == old(signals) + StopSignals(old(current), e)
      && currentVolume == old(currentVolume) && mixerCommands == old(mixerCommands)
    }

    /**
     * What playing leaves behind, with `idle` the handle stopping left. Playback
     * is always stopped first. A missing file keeps the volume and leaves `idle`
     * as the handle. An existing file re-reads the volume; when VLC starts it is
     * the new, live handle and a displaced idle viewer stays live, untracked.
     */
    twostate predicate Played(filename: string, e: StopEnv, isFile: bool, read: MixerRun, playerSpawns: bool, new idle: Proc?)
      reads this
    {
      && (old(current) != null ==> old(current) !in live)
      && signals == old(signals) + StopSignals(old(current), e)
      && mixerCommands == old(mixerCommands)
      && currentVolume == (if isFile then SystemVolume(read) else old(currentVolume))
      && (BlankLadder(e) == ViewerShown || BlankLadder(e) == BlankerShown ==> fresh(idle))
      && (!(isFile && playerSpawns) ==> current == idle && StopOutcome(e, old(current), old(live), idle, live))
      && (isFile && playerSpawns ==>
            && current != null && fresh(current) && current in live
            && current.kind == Vlc(JoinPath(videoDirectory, filename))
            && current != idle
            && StopOutcome(e, old(current), old(live), idle, live - {current})
            && (idle != null && idle != old(current) ==> idle in live))
    }

    /**
     * The daemon as it stands after loading and reading its configuration: the
     * control picked from `amixer scontrols`, the clamped step, volume 80 and no
     * child process.
     */
    constructor (controls: seq<string>, videoDirectory: string, requestedStep: int)
      ensures Valid()
      ensures mixerControl == SelectControl(controls)
      ensures volumeStep == StepFromArgument(requestedStep)
      ensures this.videoDirectory == videoDirectory
      ensures currentVolume == DefaultVolume && current == null
      ensures live == {} && signals == [] && mixerCommands == []
    {
      mixerControl := SelectControl(controls);
      volumeStep := StepFromArgument(requestedStep);
      this.videoDirectory := videoDirectory;
      currentVolume := DefaultVolume;
      current := null;
      live := {};
      signals := [];
      mixerCommands := [];
    }

    /**
     * `set_system_volume`: runs `amixer set` with the level clamped to 0..100 and
     * reports whether amixer ran and exited with status 0.
     */
    method SetSystemVolume(percent: int, run: MixerRun) returns (ok: bool)
      requires Valid()
      modifies this
      ensures Valid()
      ensures ok <==> Succeeded(run)
      ensures mixerCommands == old(mixerCommands) + [SetVolumeArgs(mixerControl, percent)]
      ensures currentVolume == old(currentVolume)
      ensures current == old(current) && live == old(live) && signals == old(signals)
    {
      mixerCommands := mixerCommands + [SetVolumeArgs(mixerControl, percent)];
      match run
      case Ran(status, _) => ok := status == 0;
      case LaunchFailed => ok := false;
    }

    /**
     * `volume_up`: re-reads the system volume, asks for one step more (at most
     * 100) and keeps that level only when amixer succeeds; otherwise the level
     * just read is kept.
     */
    method VolumeUp(read: MixerRun, write: MixerRun) returns (ok: bool)
      requires Valid()
      modifies this
      ensures Valid()
      ensures ok <==> Succeeded(write)
      ensures Stepped(read, write, RaisedLevel(SystemVolume(read), volumeStep))
      ensures 0 <= SystemVolume(read) <= 100 ==> 0 <= currentVolume <= 100
    {
      currentVolume := SystemVolume(read);
      var target := RaisedLevel(currentVolume, volumeStep);
      ok := SetSystemVolume(target, write);
      if ok {
        currentVolume := target;
      }
    }

    /**
     * `volume_down`: re-reads the system volume, asks for one step less (at least
     * 0) and keeps that level only when amixer succeeds; otherwise the level just
     * read is kept.
     */
    method VolumeDown(read: MixerRun, write: MixerRun) returns (ok: bool)
      requires Valid()
      modifies this
      ensures Valid()
      ensures ok <==> Succeeded(write)
      ensures Stepped(read, write, LoweredLevel(SystemVolume(read), volumeStep))
      ensures 0 <= SystemVolume(read) <= 100 ==> 0 <= currentVolume <= 100
    {
      currentVolume := SystemVolume(read);
      var target := LoweredLevel(currentVolume, volumeStep);
      ok := SetSystemVolume(target, write);
      if ok {
        currentVolume := target;
      }
    }

    /**
     * `volume_set`: a level outside 0..100 is rejected and nothing changes; an
     * in-range level is handed to amixer and kept only when amixer succeeds.
     */
    method VolumeSet(value: int, write: MixerRun) returns (ok: bool)
      requires Valid()
      modifies this
      ensures Valid()
      ensures ok <==> 0 <= value <= 100 && Succeeded(write)
      ensures LevelStored(value, write)
    {
      if value < 0 || value > 100 {
        return false;
      }
      ok := SetSystemVolume(value, write);
      if ok {
        currentVolume := value;
      }
    }

    /**
     * The first half of `stop_video`: a tracked child that still runs gets
     * SIGTERM, and SIGKILL if it outlives the grace period, and the handle is
     * cleared; a child that already exited keeps its handle. Either way the
     * tracked child is no longer live.
     */
    method EndTracked(e: StopEnv)
      requires Valid() && PollAgrees(e)
      modifies this
      ensures Valid()
      ensures current == (if old(current) != null && e.running then null else old(current))
      ensures live == Drop(old(live), old(current))
      ensures signals == old(signals) + StopSignals(old(current), e)
      ensures currentVolume == old(currentVolume) && mixerCommands == old(mixerCommands)
    {
      if current != null && e.running {
        var p := current;
        signals := signals + [Terminate(p)];
        if !e.exitsInGrace {
          signals := signals + [Kill(p)];
        }
        live := live - {p};
        current := null;
      } else if current != null {
        // poll() saw it exit on its own
        live := live - {current};
      }
    }

    /**
     * The second half of `stop_video`, the blank-screen ladder: feh when `which`
     * finds it or apt-get installs it, else xset; a started process becomes the
     * live handle, a failed feh clears it, and when xset fails too the handle
     * stays as it was.
     */
    method ShowBlankScreen(e: StopEnv)
      modifies this
      ensures match BlankLadder(e)
        case ViewerShown | BlankerShown =>
          && current != null && fresh(current) && live == old(live) + {current}
          && current.kind == (if BlankLadder(e) == ViewerShown then FehBlackScreen else XsetBlank)
        case ViewerFailed => current == null && live == old(live)
        case NothingShown => current == old(current) && live == old(live)
      ensures signals == old(signals) && currentVolume == old(currentVolume) && mixerCommands == old(mixerCommands)
    {
      if e.fehFound {
        current := CreateBlackScreen(e.viewerSpawns);
        if current != null {
          live := live + {current};
        }
      } else if e.fehInstalled {
        current := CreateBlackScreen(e.viewerSpawns);
        if current != null {
          live := live + {current};
        }
      } else if e.blankerSpawns {
        var blanker := new Proc(XsetBlank);
        current := blanker;
        live := live + {blanker};
      }
    }

    /**
     * `stop_video`: ends the tracked child, then lets the blank-screen ladder
     * decide the new handle, as `Stopped` states.
     */
    method StopVideo(e: StopEnv)
      requires Valid() && PollAgrees(e)
      modifies this
      ensures Valid()
      ensures Stopped(e)
    {
      EndTracked(e);
      ShowBlankScreen(e);
    }

    /**
     * `play_video`: always stops first, so even a missing file ends playback and
     * leaves the idle handle (`idle`) in place. An existing file re-reads the
     * volume and, when VLC starts, VLC replaces the handle while the idle viewer
     * it displaces keeps running untracked.
     */
    method PlayVideo(filename: string, e: StopEnv, isFile: bool, read: MixerRun, playerSpawns: bool)
      returns (ghost idle: Proc?)
      requires Valid() && PollAgrees(e)
      modifies this
      ensures Valid()
      ensures Played(filename, e, isFile, read, playerSpawns, idle)
    {
      StopVideo(e);
      idle := current;
      ghost var stopped := live;
      var path := JoinPath(videoDirectory, filename);
      if !isFile {
        return;
      }
      currentVolume := SystemVolume(read);
      if playerSpawns {
        var player := new Proc(Vlc(path));
        assert player !in stopped;
        current := player;
        live := live + {player};
        assert live - {player} == stopped;
      }
    }

    /**
     * A play of an existing file that VLC opens, then a stop, with feh starting
     * both times, leaves two black-screen viewers alive: the one the play
     * displaced, which no signal ever reaches, and the one the stop starts.
     */
    method ViewerLeaksAcrossPlayAndStop(filename: string, e1: StopEnv, read: MixerRun, e2: StopEnv)
      returns (ghost displaced: Proc?, ghost viewer: Proc?)
      requires Valid() && PollAgrees(e1)
      requires BlankLadder(e1) == ViewerShown && BlankLadder(e2) == ViewerShown
      modifies this
      ensures Valid()
      ensures displaced != null && viewer != null && displaced != viewer
      ensures displaced.kind == FehBlackScreen && viewer.kind == FehBlackScreen
      ensures current == viewer && displaced in live && viewer in live
      ensures forall i :: 0 <= i < |signals| ==> signals[i].target != displaced
    {
      displaced := PlayVideo(filename, e1, true, read, true);
      ghost var player, playing := current, live;
      StopVideo(e2);
      viewer := current;
      assert Drop(playing, player) == playing - {player};
    }

    /**
     * `handle_osc_message`: routes the address and arguments and runs the chosen
     * handler, with that handler's whole outcome; a rejected level or an unknown
     * command changes nothing. `idle` is the handle a play's stop left.
     */
    method HandleMessage(address: string, args: seq<Arg>, w: World) returns (ghost idle: Proc?)
      requires Valid()
      requires Route(address, args).PlayFile? || Route(address, args).StopPlayback? ==> PollAgrees(w.stop)
      modifies this
      ensures Valid()
      ensures match Route(address, args)
        case PlayFile(name) => Played(name, w.stop, w.isFile, w.mixerGet, w.playerSpawns, idle)
        case StopPlayback => Stopped(w.stop)
        case RaiseVolume => Stepped(w.mixerGet, w.mixerSet, RaisedLevel(SystemVolume(w.mixerGet), volumeStep))
        case LowerVolume => Stepped(w.mixerGet, w.mixerSet, LoweredLevel(SystemVolume(w.mixerGet), volumeStep))
        case SetVolume(level) => LevelStored(level, w.mixerSet)
        case RejectVolume => unchanged(this)
        case Ignore(_) => unchanged(this)
    {
      idle := null;
      match Route(address, args)
      case PlayFile(name) =>
        idle := PlayVideo(name, w.stop, w.isFile, w.mixerGet, w.playerSpawns);
      case StopPlayback =>
        StopVideo(w.stop);
      case RaiseVolume =>
        var ok := VolumeUp(w.mixerGet, w.mixerSet);
      case LowerVolume =>
        var ok := VolumeDown(w.mixerGet, w.mixerSet);
      case SetVolume(level) =>
        var ok := VolumeSet(level, w.mixerSet);
      case RejectVolume =>
      case Ignore(_) =>
    }
  }
}

=== FILE: pytext.dfy ===
/**
 * The few Python string built-ins the daemon relies on, over `string` (a sequence
 * of characters): `str.find` for one character, slicing with non-negative
 * bounds, `str.lstrip` of one character, the `in` substring test, and `int()` /
 * `str()` for decimal integers.
 */
module PyText {
  import opened Wrappers

  /** `s.find(c)`: the index of the first `c` in `s`, or -1 when there is none. */
  function Find(s: string, c: char): (r: int)
    ensures r == -1 <==> c !in s
    ensures r != -1 ==> 0 <= r < |s| && s[r] == c && c !in s[..r]
  {
    if |s| == 0 then -1
    else if s[0] == c then 0
    else
      var k := Find(s[1..], c);
      if k == -1 then -1
      else
        assert s[..k + 1] == [s[0]] + s[1..][..k];
        k + 1
  }

  /** When `c` is not in `p`, the first `c` of `p + q` is the first `c` of `q`, shifted by `|p|`. */
  lemma {:induction false} FindAfter(p: string, q: string, c: char)
    requires c !in p
    ensures Find(p + q, c) == if c in q then |p| + Find(q, c) else -1
  {
    if p == [] {
      assert p + q == q;
    } else {
      var t := p + q;
      assert t[0] == p[0] && t[0] != c;
      assert t[1..] == p[1..] + q;
      assert c !in p[1..];
      FindAfter(p[1..], q, c);
      assert Find(t, c) == if Find(t[1..], c) == -1 then -1 else Find(t[1..], c) + 1;
    }
  }

  /**
   * `s[i:j]` for non-negative bounds: each bound is cut down to `len(s)` and the
   * slice is empty when the start is not before the end.
   */
  function Slice(s: string, i: nat, j: nat): (r: string)
    ensures i <= j <= |s| ==> r == s[i..j]
    ensures j <= i ==> r == []
    ensures |r| <= |s|
  {
    var a := if i <= |s| then i else |s|;
    var b := if j <= |s| then j else |s|;
    if a <= b then s[a..b] else []
  }

  /** `pat in s` for strings: `pat` occurs somewhere in `s` as a contiguous run. */
  predicate Contains(s: string, pat: string)
    decreases |s|
  {
    pat <= s || (|s| > 0 && Contains(s[1..], pat))
  }

  /** `s.lstrip(c)`: `s` without its leading run of `c` characters. */
  function LStrip(s: string, c: char): string {
    if |s| > 0 && s[0] == c then LStrip(s[1..], c) else s
  }

  /**
   * What `lstrip` leaves is a suffix of its input that does not start with `c`,
   * and everything it removed was `c`.
   */
  lemma {:induction false} LStripSpec(s: string, c: char)
    ensures var r := LStrip(s, c);
            && |r| <= |s| && r == s[|s| - |r|..]
            && (forall i :: 0 <= i < |s| - |r| ==> s[i] == c)
            && (r == [] || r[0] != c)
  {
    if |s| > 0 && s[0] == c {
      LStripSpec(s[1..], c);
      var r := LStrip(s, c);
      assert r == LStrip(s[1..], c);
      forall i | 0 < i < |s| - |r|
        ensures s[i] == c
      {
        assert s[i] == s[1..][i - 1];
      }
    }
  }

  /** `n` copies of the character `c`. */
  function Repeat(c: char, n: nat): string {
    if n == 0 then [] else [c] + Repeat(c, n - 1)
  }

  /** One leading `c` is stripped like the rest. */
  lemma LStripCons(c: char, s: string)
    ensures LStrip([c] + s, c) == LStrip(s, c)
  {
    assert ([c] + s)[1..] == s;
  }

  /** However many leading `c` characters there are, `lstrip` removes them all. */
  lemma {:induction false} LStripRepeat(c: char, n: nat, s: string)
    ensures LStrip(Repeat(c, n) + s, c) == LStrip(s, c)
  {
    if n == 0 {
      assert Repeat(c, n) + s == s;
    } else {
      assert Repeat(c, n) + s == [c] + (Repeat(c, n - 1) + s);
      LStripCons(c, Repeat(c, n - 1) + s);
      LStripRepeat(c, n - 1, s);
    }
  }

  predicate IsDigit(c: char) {
    '0' <= c <= '9'
  }

  predicate AllDigits(s: string) {
    forall i :: 0 <= i < |s| ==> IsDigit(s[i])
  }

  /** The number a run of decimal digits denotes, most significant digit first. */
  function DigitsValue(s: string): nat
    requires AllDigits(s)
  {
    if s == [] then 0
    else 10 * DigitsValue(s[..|s| - 1]) + (s[|s| - 1] as int - '0' as int)
  }

  /** The digit character for `d` in 0..9. */
  function Digit(d: nat): (c: char)
    requires d < 10
    ensures IsDigit(c) && c as int - '0' as int == d
  {
    ('0' as int + d) as char
  }

  /** `str(n)` for a natural number: its decimal digits without leading zeros. */
  function ShowNat(n: nat): (s: string)
    ensures |s| > 0 && AllDigits(s)
    ensures s[0] == '0' ==> n == 0
    ensures |s| > 1 ==> s[0] != '0'
  {
    if n < 10 then [Digit(n)] else ShowNat(n / 10) + [Digit(n % 10)]
  }

  /** `str(i)` for an integer: a minus sign before the digits of a negative number. */
  function ShowInt(i: int): (s: string)
    ensures |s| > 0
    ensures s[0] == '-' <==> i < 0
    ensures i >= 0 ==> AllDigits(s) && (|s| > 1 ==> s[0] != '0')
    ensures i < 0 ==> |s| > 1 && AllDigits(s[1..]) && s[1] != '0'
  {
    if i < 0 then "-" + ShowNat(-i) else ShowNat(i)
  }

  /** Reading back the digits `ShowNat` writes gives the number written. */
  lemma {:induction false} ShowNatValue(n: nat)
    ensures DigitsValue(ShowNat(n)) == n
  {
    if n >= 10 {
      var s := ShowNat(n);
      assert s[..|s| - 1] == ShowNat(n / 10);
      ShowNatValue(n / 10);
    }
  }

  /**
   * `int(s)` for decimal text: an optional `+` or `-` followed by at least one
   * ASCII digit; anything else (the empty string included) is not a number.
   */
  function ParseInt(s: string): (r: Option<int>)
    ensures s == [] ==> r == None
    ensures r.Some? ==> |s| > 0 && (IsDigit(s[0]) || s[0] == '-' || s[0] == '+')
    ensures r.Some? && r.value < 0 ==> s[0] == '-'
    ensures r.Some? ==> forall k :: 0 < k < |s| ==> IsDigit(s[k])
    ensures r.Some? ==> IsDigit(s[|s| - 1])
    ensures s != [] && AllDigits(s) ==> r == Some(DigitsValue(s))
    ensures |s| > 1 && s[0] == '-' && AllDigits(s[1..]) ==> r == Some(-(DigitsValue(s[1..]) as int))
    ensures |s| > 1 && s[0] == '+' && AllDigits(s[1..]) ==> r == Some(DigitsValue(s[1..]))
  {
    if |s| > 0 && (s[0] == '-' || s[0] == '+') then
      var digits := s[1..];
      if digits != [] && AllDigits(digits) then
        var magnitude: int := DigitsValue(digits);
        Some(if s[0] == '-' then -magnitude else magnitude)
      else None
    else if s != [] && AllDigits(s) then Some(DigitsValue(s))
    else None
  }

  /** `int(str(i)) == i`: the decimal text of an integer parses back to it. */
  lemma ParseShowInt(i: int)
    ensures ParseInt(ShowInt(i)) == Some(i)
  {
    if i < 0 {
      assert ShowInt(i)[1..] == ShowNat(-i);
      ShowNatValue(-i);
    } else {
      ShowNatValue(i);
    }
  }

  /** Decimal text never holds the bracket or percent sign that amixer uses around a level. */
  lemma ShowIntHasNoMarks(i: int)
    ensures '[' !in ShowInt(i) && '%' !in ShowInt(i)
  {
    var s := ShowInt(i);
    forall k | 0 <= k < |s|
      ensures s[k] != '[' && s[k] != '%'
    {
      if i < 0 && k > 0 {
        assert s[k] == ShowNat(-i)[k - 1];
      }
    }
  }
}

=== FILE: wrappers.dfy ===
/** The Some/None type that stands for Python's `None` where a value may be missing. */
module Wrappers {
  datatype Option<+T> = None | Some(value: T)
}
